=== FILE: README.md ===
# datasets2 in Dafny: shard naming on save, load dispatch on load

`datasets2` is a thin layer over the Hugging Face `datasets` library. It has two pieces of its own logic, and this project models and proves both:

- **`save_as_parquet`** (`datasets2/save.py`) builds `num_shards` shards of a dataset with `ds.shard`. When embedding is on and some feature requires decoding, it rewrites each shard so that externally referenced file bytes are embedded. It takes the first shard off the iterator with `next` and chains it back. Then it writes shard `i` to `{outdir}/{split}-{i:05d}-of-{num_shards:05d}-{fingerprint}.parquet` and returns those paths in index order.
- **`load_dataset`** (`datasets2/load.py`) first looks at the directory listing. If no name ends in `.parquet`, it calls the library's generic loader. Otherwise it reads `dataset_info.json`. If that file's `builder_name` is `"parquet"`, it maps every split in the descriptor to the sorted paths of the files named `<split>-….parquet` and hands this map to the library's parquet loader. Any other builder name goes to the generic loader.

Modules:

- `Wrappers` (`wrappers.dfy`): `Option` and `Result`.
- `Strings` (`strings.dfy`): `startswith` and `endswith`. Python's code-point order on `str`. `sorted()` on a list of strings, written as an insertion sort. Lemmas: the order is a strict total order, and a sorted permutation is unique.
- `Decimal` (`decimal.dfy`): `str(n)`, `f"{n:0{w}d}"` and reading digits back.
- `Save` (`save.dfy`): `save_as_parquet`. The `datasets` calls are uninterpreted functions carried in the `Dataset` and `ShardOps` values, over an opaque shard type:
  - `ds.shard(num_shards=n, index=i)`;
  - the embedding rewrite of one shard;
  - a shard's `_fingerprint`.
- `Load` (`load.dfy`): the load decision as a pure function. It returns `GenericDelegate`, `ParquetLoad(data_files)` or `Failed(error)`, given the `os.listdir` result and the parsed descriptor.
- `SaveThenLoad` (`save_then_load.dfy`): how the file names one save writes are seen by the loader.

Error outcomes follow the code:

- `num_shards=None` always raises. The branch reads `max_shard_size`, which the function assigns later, so Python treats it as an unbound local variable. The size-based shard count in that branch is never reached.
- `num_shards <= 0` gives an empty shard generator, so `next` raises `StopIteration`. By then `outdir` has already been created, and nothing is written.
- `os.listdir(path)` raises when `path` is not a local directory, for example a hub dataset name.
- A missing `dataset_info.json` raises once parquet files are present.
- A descriptor without `splits` fails when the loop iterates `None`.

What the code does not do:

- The code never writes `dataset_info.json` and merges no per-split metadata. `SaveThenLoad.SavedShardsAloneDoNotLoad` shows what follows: a directory holding only what `save_as_parquet` wrote makes `load_dataset` raise.
- The code has no byte-budget shard count. The `None` branch raises.
- The code produces no shard at all for `num_shards=0`.
- The generic fallback does not pass `path` on.

## Model

| member | source | states |
|---|---|---|
| Save.SaveAsParquet | datasets2/save.py:14-82 | The defaults are those of the source: `split="train"`, `num_shards=2`, `embed_external_files=True`. `outdir` is always created. `None` shards fails as an unbound `max_shard_size`, and `n <= 0` fails at `next`; neither writes a file. For `n >= 1` it returns exactly `n` paths and writes exactly `n` files. Entry `i` is the path for index `i` and the fingerprint of shard `i` as it reaches `to_parquet`: embedded when embedding applies, untouched otherwise. |
| Save.SaveWithDefaults | datasets2/save.py:14-16 | A call that passes only the dataset and `outdir` uses all three defaults: it returns exactly two paths, `train-00000-of-00002-…` and `train-00001-of-00002-…`, each with the fingerprint of its shard after embedding (which is on by default). |
| Save.WriteShards | datasets2/save.py:64-82 | The `enumerate` loop writes one file per shard, in order. Entry `i` of the returned list is the `path_in_repo` of index `i` and shard `i`'s fingerprint, and that shard is written to that path. |
| Save.ShardStream | datasets2/save.py:39-42 | The generator definition. It is empty when `num_shards <= 0`, and otherwise yields `ds.shard(num_shards=n, index=i)` for `i` in `0..n-1`, in order. `Save.Next` and `Save.SaveAsParquet` state what follows from it. |
| Save.ShardFileName | datasets2/save.py:62 | The file-name part of `path_in_repo`. Every name starts with `split + "-"` and ends with `.parquet`, so it passes the loader's filter, as `SaveThenLoad.SavedNameBelongsToSplit` uses. `Save.ShardPath` is `outdir + "/" + ShardFileName(…)`, so the uniqueness and order that `Save.ShardPathsDistinct` and `Save.ShardPathsOrdered` state for paths carry over to names. |
| Save.ShardPath | datasets2/save.py:61-62 | The definition of `path_in_repo`. Every path starts with `outdir + "/" + split + "-"` and ends with `"-" + fingerprint + ".parquet"`. `Save.ShardPathsDistinct`, `Save.ShardPathsOrdered` and `Save.SavedPathsInSortedOrder` state its properties. |
| Save.PathTail | datasets2/save.py:62 | The text after the index segment starts with `-`, so the zero-padded index is a digit run that ends at a dash. |
| Save.DecodableColumns | datasets2/save.py:20-28 | With embedding off the list is empty. With it on, it holds exactly the names of the features that require decoding, and it is non-empty iff some feature requires decoding. |
| Save.EmbedAll | datasets2/save.py:46-59 | The embedding generator yields one rewritten shard per input shard, in input order. |
| Save.Next | datasets2/save.py:64-70 | `next` fails exactly on an empty iterator. Otherwise re-chaining the first element in front of the rest gives back the original sequence, so neither count nor order changes. |
| Save.ShardPathsDistinct | datasets2/save.py:61-62 | For a fixed directory, split and shard count, different indices give different paths, whatever the fingerprints are. |
| Save.ShardPathsOrdered | datasets2/save.py:61-62 | For indices below 100000, string order of the paths is index order, whatever the fingerprints are. |
| Save.SavedPathsInSortedOrder | datasets2/save.py:61-82 | The returned list has no duplicates. For at most 100000 shards it is strictly increasing, and `sorted()` leaves it unchanged. |
| Save.NameOrderBreaksAt100000 | datasets2/save.py:62 | At 100000 the five-digit padding overflows: the padded index `"100000"` sorts before `"99999"`. |
| Save.ShardPathOrderBreaksAt100000 | datasets2/save.py:61-62 | The path of shard 100000 sorts before the path of shard 99999, for any directory, split, count and fingerprints. So the 100000 bound of `Save.ShardPathsOrdered` is tight. |
| Decimal.Pad5 | datasets2/save.py:62 | The definition of `{n:05d}` for `n >= 0`. The result is all digits and at least 5 long, and exactly 5 long below 100000. `Decimal.ParseZeroPad`, `Decimal.ZeroPadInjective` and `Decimal.ZeroPadOrder` state that it reads back, is injective and keeps order. |
| Decimal.ZeroPadShape | datasets2/save.py:62 | `{n:05d}` is all digits and at least 5 long, and exactly 5 long below 100000. |
| Decimal.ParseZeroPad | datasets2/save.py:62 | Reading the zero-padded text back as an integer gives `n`, so the index segment of a path determines the index. |
| Decimal.ZeroPadInjective | datasets2/save.py:62 | Distinct indices give distinct padded texts. |
| Decimal.ZeroPadOrder | datasets2/save.py:62 | Below 10^width, padded texts have length `width` and compare as strings the way the numbers compare. |
| Strings.Sort | datasets2/load.py:42-44 | `sorted()` returns a non-decreasing permutation of its input. |
| Strings.SortedUnique | datasets2/load.py:42-44 | Two sorted lists with the same elements are equal. Python's string order is total and antisymmetric, so `sorted()` has exactly one possible result. |
| Strings.SortPermutationInvariant | datasets2/load.py:42-44 | `sorted()` of any reordering of a list is the same list. |
| Load.HasParquetFiles | datasets2/load.py:6-10 | True iff some listed name ends with `.parquet`. |
| Load.FindParquetFilesForSplit | datasets2/load.py:23-26 | The definition of `find_parquet_files_for_split`, in listing order. It yields at most as many paths as listed names. `Load.FindMembership` states which paths it yields, and `Load.FindPermutation` that listing order only reorders them. |
| Load.FindMembership | datasets2/load.py:23-26 | A path is yielded iff it is `join(directory, name)` for a listed name that ends with `.parquet` and starts with `split + "-"`. |
| Load.FindPermutation | datasets2/load.py:23-26 | Reordering the listing only reorders the found paths. Each path is found the same number of times. |
| Load.DataFiles | datasets2/load.py:40-44 | The keys are exactly the split names. Each value is sorted and is a permutation of that split's found paths. |
| Load.LoadDataset | datasets2/load.py:13-48 | Covers `load_dataset_info` (load.py:13-15), `dataset_info_says_buider_is_parquet` (load.py:18-20) and `load_dataset` (load.py:29-48). Each outcome holds exactly when its conditions do. An unlistable path is an error. The generic delegate is chosen iff no name ends in `.parquet` or the descriptor's builder is not `"parquet"`. A missing `dataset_info.json` with parquet files present is an error, not a fallback. A `"parquet"` descriptor without splits is an error. The parquet loader is reached iff there are parquet files and the descriptor has builder `"parquet"` and splits; this includes an empty split list. Its `data_files` keys are exactly the descriptor's split names, and each value is sorted and a permutation of that split's found paths. |
| Load.ListingOrderIrrelevant | datasets2/load.py:37-44 | The outcome is the same for every order `os.listdir` may return. |
| Load.NoParquetIgnoresInfo | datasets2/load.py:37-48 | With no `.parquet` name the outcome is the generic delegate, whatever the descriptor holds or whether it exists. |
| Load.ParquetSplitFiles | datasets2/load.py:38-44 | In the parquet branch, each split maps to `sorted` of its found paths. It contains exactly the split's matching files and is `[]` when none match. |
| Load.SplitPrefixOverlap | datasets2/load.py:25 | Suppose `s1 + "-"` is a prefix of split `s2`. Then every file of `s2` is also listed under `s1`. |
| Load.TrainCollectsTrainAug | datasets2/load.py:25 | Any file `train-aug-<rest>.parquet` is found for both `train` and `train-aug`. |
| SaveThenLoad.SavedNameBelongsToSplit | datasets2/load.py:25 | Every name the save writes passes the loader's filter for its own split. |
| SaveThenLoad.ReloadInIndexOrder | datasets2/load.py:41-44 | Take one save's shard names, mixed with other names that do not pass the split's filter (so not, for example, `train-aug-…` files when the split is `train`), and listed in any order. For at most 100000 shards, the loader's sorted list for the split is exactly the list the save returned. This holds when `outdir` does not end with `/`: the model joins with `"/"` as save.py:62 does, while `os.path.join` would not double a trailing separator. |
| SaveThenLoad.SavedShardsAloneDoNotLoad | datasets2/load.py:37-39 | A directory holding only one save's shards, with no `dataset_info.json`, makes `load_dataset` fail with a missing file. |

## Left out

- `datasets` library behaviour is not modelled. This covers `ds.shard`, `with_format`, `map`/`embed_table_storage`, `require_decoding`, `to_parquet`, `DatasetInfo.from_dict` and both `datasets.load_dataset` calls. Shards, their rewrite and their fingerprints are uninterpreted. `require_decoding` enters only as a boolean per feature. The loader calls are recorded only as the branch taken and the `data_files` map passed.
- Arguments forwarded by the loader are not modelled. `*args`/`**kwargs` are not represented, and neither is the fact that the generic fallback drops `path`.
- Lazy generator evaluation is not modelled. The foreign calls are treated as pure and total, so the order in which `ds.shard`, the rewrite and `to_parquet` run does not matter. Failures inside them are not modelled.
- `ds._estimate_nbytes()`: its result is used only in the `num_shards=None` branch, which fails first, so it is not modelled. The `int(nbytes / max_shard_size) + 1` and `max(..., 1)` it would feed are unreachable and not modelled either.
- File I/O is not modelled. `os.makedirs` appears only as `createdDir`; its failures, write failures, JSON reading and parquet writing are not modelled. `tqdm` and the debug `print`s have no effect on results.
- Each `os.listdir` call in `load.py` sees one directory content, the same across calls. A directory that changes between the calls is not modelled. `dataset_info.json` is read twice, and both reads are taken to give the same descriptor.
- `os.path.join` is modelled as `directory + "/" + name`. The case where `directory` already ends with a separator is not modelled.
- SaveThenLoad.ReloadInIndexOrder: assumes `outdir` has no trailing `/`. With `outdir = "d/"`, save.py:62 returns `d//train-…` while `os.path.join("d/", name)` gives `d/train-…`, so the two lists would differ by that separator. It also assumes the saved names are entries of `os.listdir(outdir)`, which holds only when `split` and the fingerprints contain no `/`. With `split = "a/b"` the shards land in a subdirectory `a`, and the listing shows `a`, not the shard names. Nor does it cover a directory that also holds files of a split whose name starts with `split + "-"`: `Load.SplitPrefixOverlap` shows that those are collected too, so the sorted list is then longer than what the save returned.
- Load.LoadDataset: `data_files` is a Python dict whose keys keep the insertion order of `dataset_info.splits` (load.py:40-44). The model uses a `map`, which keeps which split maps to which files but not the order of the keys.
- Strings are Dafny `char` sequences, so Python strings holding lone surrogates (as `os.listdir` can return) are not modelled.
- Save.ShardPathsOrdered: holds only below 100000 shard indices. That is the code's real behaviour, as Save.NameOrderBreaksAt100000 shows, not a weakening.
- Negative indices never reach the formatter, so `{n:05d}` is modelled for non-negative `n` only.
- `tests/test_save_as_parquet.py` and `setup.py` are context only: a test without assertions and packaging.

=== FILE: decimal.dfy ===
/**
 * Python's `d` presentation type for non-negative integers: `str(n)` and the
 * zero-padded `{n:0<width>d}` that names shard files, together with the
 * reading back of a digit string.
 */
module Decimal {
  import Strings

  function Pow10(k: nat): (r: nat)
    ensures r >= 1
  {
    if k == 0 then 1 else 10 * Pow10(k - 1)
  }

  predicate IsDigit(c: char) {
    '0' <= c <= '9'
  }

  predicate AllDigits(s: string) {
    forall i :: 0 <= i < |s| ==> IsDigit(s[i])
  }

  function DigitValue(c: char): nat
    requires IsDigit(c)
  {
    (c as int) - ('0' as int)
  }

  function DigitChar(d: nat): (c: char)
    requires d < 10
    ensures IsDigit(c) && DigitValue(c) == d
  {
    (('0' as int) + d) as char
  }

  /** `str(n)`: the decimal digits of `n`, most significant first, no leading zero. */
  function Digits(n: nat): (s: string)
    ensures |s| >= 1 && AllDigits(s)
    ensures |s| > 1 ==> s[0] != '0'
  {
    if n < 10 then [DigitChar(n)] else Digits(n / 10) + [DigitChar(n % 10)]
  }

  function Zeros(k: nat): (s: string)
    ensures |s| == k && AllDigits(s)
  {
    seq(k, _ => '0')
  }

  /** `f"{n:0{width}d}"` for `n >= 0`: `str(n)` left-padded with zeros to at least `width` characters. */
  function ZeroPad(n: nat, width: nat): string
  {
    var d := Digits(n);
    (if |d| < width then Zeros(width - |d|) else []) + d
  }

  /** `f"{n:05d}"`, the index and count segments of a shard name. */
  function Pad5(n: nat): (s: string)
    ensures AllDigits(s) && |s| >= 5
    ensures n < 100000 ==> |s| == 5
  {
    assert Pow10(5) == 100000;
    ZeroPadShape(n, 5);
    ZeroPad(n, 5)
  }

  /** `int(s)` for a string of decimal digits (leading zeros allowed). */
  function Parse(s: string): nat
    requires AllDigits(s)
  {
    if |s| == 0 then 0 else 10 * Parse(s[..|s| - 1]) + DigitValue(s[|s| - 1])
  }

  /** The padded text is all digits, at least `width` long and exactly `width` long below 10^width. */
  lemma {:induction false} ZeroPadShape(n: nat, width: nat)
    ensures AllDigits(ZeroPad(n, width))
    ensures |ZeroPad(n, width)| >= width
    ensures width >= 1 && n < Pow10(width) ==> |ZeroPad(n, width)| == width
  {
    if width >= 1 && n < Pow10(width) {
      DigitsLength(n, width);
    }
  }

  lemma {:induction false} DigitsLength(n: nat, k: nat)
    requires k >= 1 && n < Pow10(k)
    ensures |Digits(n)| <= k
    decreases k
  {
    if n >= 10 {
      assert k >= 2;
      assert n / 10 < Pow10(k - 1);
      DigitsLength(n / 10, k - 1);
    }
  }

  lemma {:induction false} ParseDigits(n: nat)
    ensures Parse(Digits(n)) == n
    decreases n
  {
    if n >= 10 {
      var d := Digits(n / 10);
      assert (d + [DigitChar(n % 10)])[..|d|] == d;
      ParseDigits(n / 10);
    }
  }

  lemma {:induction false} ParseZeros(k: nat)
    ensures Parse(Zeros(k)) == 0
    decreases k
  {
    if k > 0 {
      assert Zeros(k)[..k - 1] == Zeros(k - 1);
      ParseZeros(k - 1);
    }
  }

  /** Leading zeros do not change the value read back. */
  lemma {:induction false} ParseLeadingZeros(k: nat, s: string)
    requires AllDigits(s)
    ensures AllDigits(Zeros(k) + s)
    ensures Parse(Zeros(k) + s) == Parse(s)
    decreases |s|
  {
    var z := Zeros(k);
    assert AllDigits(z + s) by {
      forall i | 0 <= i < |z + s| ensures IsDigit((z + s)[i]) {
        if i < |z| { assert (z + s)[i] == z[i]; } else { assert (z + s)[i] == s[i - |z|]; }
      }
    }
    if |s| == 0 {
      assert z + s == z;
      ParseZeros(k);
    } else {
      var init := s[..|s| - 1];
      assert (z + s)[..|z + s| - 1] == z + init;
      assert (z + s)[|z + s| - 1] == s[|s| - 1];
      ParseLeadingZeros(k, init);
    }
  }

  /** Reading back a zero-padded number gives the number: `int(f"{n:0wd}") == n`. */
  lemma ParseZeroPad(n: nat, width: nat)
    ensures AllDigits(ZeroPad(n, width))
    ensures Parse(ZeroPad(n, width)) == n
  {
    var d := Digits(n);
    ParseDigits(n);
    if |d| < width {
      ParseLeadingZeros(width - |d|, d);
    } else {
      assert ZeroPad(n, width) == d;
    }
  }

  /** Distinct numbers get distinct padded texts. */
  lemma ZeroPadInjective(m: nat, n: nat, width: nat)
    requires ZeroPad(m, width) == ZeroPad(n, width)
    ensures m == n
  {
    ParseZeroPad(m, width);
    ParseZeroPad(n, width);
  }

  /** Padding to one more place peels off the last digit. */
  lemma ZeroPadStep(n: nat, w: nat)
    requires n >= 10 || w >= 1
    ensures ZeroPad(n, w + 1) == ZeroPad(n / 10, w) + [DigitChar(n % 10)]
  {
    var c := DigitChar(n % 10);
    if n >= 10 {
      var d := Digits(n / 10);
      var pre := if |d| < w then Zeros(w - |d|) else [];
      assert Digits(n) == d + [c];
      assert ZeroPad(n, w + 1) == pre + (d + [c]);
      assert ZeroPad(n / 10, w) == pre + d;
    } else {
      assert Digits(n) == [c];
      assert ZeroPad(n, w + 1) == Zeros(w) + [c];
      assert Digits(0) == ['0'];
      assert ZeroPad(0, w) == Zeros(w - 1) + ['0'] == Zeros(w);
    }
  }

  lemma DigitCharMonotone(a: nat, b: nat)
    requires a < b < 10
    ensures DigitChar(a) < DigitChar(b)
  {
  }

  /**
   * Below 10^width, padded texts all have length `width` and compare as
   * strings exactly as the numbers compare.
   */
  lemma {:induction false} ZeroPadOrder(i: nat, j: nat, width: nat)
    requires width >= 1 && i < j < Pow10(width)
    ensures |ZeroPad(i, width)| == width && |ZeroPad(j, width)| == width
    ensures Strings.Less(ZeroPad(i, width), ZeroPad(j, width))
    decreases width
  {
    if width == 1 {
      assert ZeroPad(i, 1) == [DigitChar(i)];
      assert ZeroPad(j, 1) == [DigitChar(j)];
      DigitCharMonotone(i, j);
    } else {
      var w := width - 1;
      ZeroPadStep(i, w);
      ZeroPadStep(j, w);
      assert Pow10(width) == 10 * Pow10(w);
      assert j / 10 < Pow10(w);
      var ci := DigitChar(i % 10);
      var cj := DigitChar(j % 10);
      if i / 10 < j / 10 {
        ZeroPadOrder(i / 10, j / 10, w);
        Strings.LessEqualLengthExtend(ZeroPad(i / 10, w), ZeroPad(j / 10, w), [ci], [cj]);
      } else {
        ZeroPadShape(i / 10, w);
        assert i / 10 == j / 10 && i % 10 < j % 10;
        DigitCharMonotone(i % 10, j % 10);
        Strings.LessLastChar(ZeroPad(i / 10, w), ci, cj);
      }
    }
  }
}

=== FILE: load.dfy ===
/**
 * `load_dataset` (datasets2/load.py): decide whether a directory is loaded
 * by the `datasets` library's own loader or as a set of parquet shards, and
 * in the second case which files make up each split.
 *
 * The directory is given by what `os.listdir` returns (in whatever order
 * it returns it) and by the parsed `dataset_info.json`; both loader calls
 * of the library are recorded only as the branch taken.
 */
module Load {
  import opened Wrappers
  import Strings

  /** What `DatasetInfo.from_dict` yields that the loader looks at: `builder_name` and the split names. */
  datatype Descriptor = Descriptor(builderName: string, splits: Option<seq<string>>)

  /** Why a call raises. */
  datatype LoadError =
    | DirectoryNotListable  // `os.listdir(path)` raises: `path` is not a local directory
    | InfoNotFound          // `open(path/dataset_info.json)` raises
    | SplitsMissing         // the descriptor has no `splits`, and iterating `None` raises

  /** Which call `load_dataset` ends in. */
  datatype LoadOutcome =
    | GenericDelegate                                // `datasets.load_dataset(*args, **kwargs)`
    | ParquetLoad(dataFiles: map<string, seq<string>>) // `datasets.load_dataset("parquet", data_files=...)`
    | Failed(error: LoadError)

  /** `os.path.join(directory, name)` for a plain file name. */
  function Join(directory: string, name: string): string
  {
    directory + "/" + name
  }

  predicate IsParquetName(name: string) {
    Strings.EndsWith(name, ".parquet")
  }

  /** The filter of `find_parquet_files_for_split`. */
  predicate BelongsToSplit(name: string, split: string) {
    IsParquetName(name) && Strings.StartsWith(name, split + "-")
  }

  /** `there_exist_parquet_files_in_this_directory`: scan the listing, stop at the first parquet name. */
  function HasParquetFiles(listing: seq<string>): (b: bool)
    ensures b <==> exists k :: 0 <= k < |listing| && IsParquetName(listing[k])
  {
    if |listing| == 0 then false
    else if IsParquetName(listing[0]) then true
    else
      var b := HasParquetFiles(listing[1..]);
      assert forall k :: 0 < k < |listing| ==> listing[k] == listing[1..][k - 1];
      b
  }

  /** `list(find_parquet_files_for_split(directory, split))`, in listing order. */
  function FindParquetFilesForSplit(directory: string, listing: seq<string>, split: string): (paths: seq<string>)
    ensures |paths| <= |listing|
  {
    if |listing| == 0 then []
    else (if BelongsToSplit(listing[0], split) then [Join(directory, listing[0])] else [])
         + FindParquetFilesForSplit(directory, listing[1..], split)
  }

  /** `path` is the join of the directory with a listed name of the split. */
  ghost predicate IsSplitFile(directory: string, listing: seq<string>, split: string, path: string) {
    exists k :: 0 <= k < |listing| && BelongsToSplit(listing[k], split) && path == Join(directory, listing[k])
  }

  /** A path is found iff it joins the directory with a listed `.parquet` name starting with `split + "-"`. */
  lemma {:induction false} FindMembership(directory: string, listing: seq<string>, split: string, path: string)
    ensures path in FindParquetFilesForSplit(directory, listing, split) <==> IsSplitFile(directory, listing, split, path)
    decreases |listing|
  {
    if |listing| > 0 {
      FindMembership(directory, listing[1..], split, path);
      if IsSplitFile(directory, listing[1..], split, path) {
        var k :| 0 <= k < |listing[1..]| && BelongsToSplit(listing[1..][k], split) && path == Join(directory, listing[1..][k]);
        assert listing[k + 1] == listing[1..][k];
      }
      if IsSplitFile(directory, listing, split, path) {
        var k :| 0 <= k < |listing| && BelongsToSplit(listing[k], split) && path == Join(directory, listing[k]);
        if k > 0 {
          assert listing[1..][k - 1] == listing[k];
        }
      }
    }
  }

  /** The `data_files` dict: each split in the descriptor mapped to `sorted(...)` of its files. */
  function DataFiles(directory: string, listing: seq<string>, splits: seq<string>): (m: map<string, seq<string>>)
    ensures m.Keys == set s | s in splits
    ensures forall s :: s in m ==>
      var found := FindParquetFilesForSplit(directory, listing, s);
      Strings.Sorted(m[s]) && multiset(m[s]) == multiset(found)
  {
    if |splits| == 0 then map[]
    else
      var last := splits[|splits| - 1];
      assert splits == splits[..|splits| - 1] + [last];
      DataFiles(directory, listing, splits[..|splits| - 1])[last := Strings.Sort(FindParquetFilesForSplit(directory, listing, last))]
  }

  /**
   * `load_dataset(path, ...)`. `listing` is `os.listdir(path)`, absent when
   * that raises; `info` is the parsed `dataset_info.json`, absent when the
   * file cannot be opened.
   */
  function LoadDataset(path: string, listing: Option<seq<string>>, info: Option<Descriptor>): (r: LoadOutcome)
    ensures listing.None? <==> r == Failed(DirectoryNotListable)
    ensures r == GenericDelegate <==>
      listing.Some? && (!HasParquetFiles(listing.value) || (info.Some? && info.value.builderName != "parquet"))
    ensures r == Failed(InfoNotFound) <==> listing.Some? && HasParquetFiles(listing.value) && info.None?
    ensures r == Failed(SplitsMissing) <==>
      && listing.Some? && HasParquetFiles(listing.value)
      && info.Some? && info.value.builderName == "parquet" && info.value.splits.None?
    ensures r.ParquetLoad? <==>
      && listing.Some? && HasParquetFiles(listing.value)
      && info.Some? && info.value.builderName == "parquet" && info.value.splits.Some?
    ensures r.ParquetLoad? ==>
      && r.dataFiles.Keys == (set s | s in info.value.splits.value)
      && forall s :: s in r.dataFiles ==>
           && Strings.Sorted(r.dataFiles[s])
           && multiset(r.dataFiles[s]) == multiset(FindParquetFilesForSplit(path, listing.value, s))
  {
    if listing.None? then Failed(DirectoryNotListable)
    else if !HasParquetFiles(listing.value) then GenericDelegate
    else if info.None? then Failed(InfoNotFound)
    else if info.value.builderName != "parquet" then GenericDelegate
    else if info.value.splits.None? then Failed(SplitsMissing)
    else ParquetLoad(DataFiles(path, listing.value, info.value.splits.value))
  }

  // ----- Properties of the load decision -----

  lemma {:induction false} FindConcat(directory: string, a: seq<string>, b: seq<string>, split: string)
    ensures FindParquetFilesForSplit(directory, a + b, split)
         == FindParquetFilesForSplit(directory, a, split) + FindParquetFilesForSplit(directory, b, split)
    decreases |a|
  {
    if |a| > 0 {
      assert (a + b)[1..] == a[1..] + b;
      FindConcat(directory, a[1..], b, split);
    } else {
      assert a + b == b;
    }
  }

  /** When every name belongs to the split, every name is found, in listing order. */
  lemma {:induction false} FindAllMatching(directory: string, listing: seq<string>, split: string)
    requires forall k :: 0 <= k < |listing| ==> BelongsToSplit(listing[k], split)
    ensures FindParquetFilesForSplit(directory, listing, split)
         == seq(|listing|, k requires 0 <= k < |listing| => Join(directory, listing[k]))
    decreases |listing|
  {
    if |listing| > 0 {
      FindAllMatching(directory, listing[1..], split);
    }
  }

  /** When no name belongs to the split, nothing is found. */
  lemma {:induction false} FindNoneMatching(directory: string, listing: seq<string>, split: string)
    requires forall k :: 0 <= k < |listing| ==> !BelongsToSplit(listing[k], split)
    ensures FindParquetFilesForSplit(directory, listing, split) == []
    decreases |listing|
  {
    if |listing| > 0 {
      FindNoneMatching(directory, listing[1..], split);
    }
  }

  /** Taking the name at position `k` out of the listing takes its found path, if any, out of the found files. */
  lemma FindRemoveAt(directory: string, b: seq<string>, k: nat, split: string)
    requires k < |b|
    ensures multiset(FindParquetFilesForSplit(directory, b, split))
         == multiset(FindParquetFilesForSplit(directory, [b[k]], split))
          + multiset(FindParquetFilesForSplit(directory, b[..k] + b[k + 1..], split))
  {
    assert b == b[..k] + [b[k]] + b[k + 1..];
    FindConcat(directory, b[..k] + [b[k]], b[k + 1..], split);
    FindConcat(directory, b[..k], [b[k]], split);
    FindConcat(directory, b[..k], b[k + 1..], split);
  }

  /** Reordering the listing reorders the found files and nothing else. */
  lemma {:induction false} FindPermutation(directory: string, a: seq<string>, b: seq<string>, split: string)
    requires multiset(a) == multiset(b)
    ensures multiset(FindParquetFilesForSplit(directory, a, split)) == multiset(FindParquetFilesForSplit(directory, b, split))
    decreases |a|
  {
    if |a| == 0 {
      assert |b| == |multiset(b)| == 0;
    } else {
      var x := a[0];
      assert x in multiset(b);
      var k :| 0 <= k < |b| && b[k] == x;
      var b' := b[..k] + b[k + 1..];
      assert b == b[..k] + [x] + b[k + 1..];
      assert a == [x] + a[1..];
      assert multiset(a[1..]) == multiset(a) - multiset{x};
      assert multiset(b') == multiset(b) - multiset{x};
      FindPermutation(directory, a[1..], b', split);
      FindConcat(directory, [x], a[1..], split);
      FindRemoveAt(directory, b, k, split);
    }
  }

  lemma {:induction false} DataFilesPermutation(directory: string, a: seq<string>, b: seq<string>, splits: seq<string>)
    requires multiset(a) == multiset(b)
    ensures DataFiles(directory, a, splits) == DataFiles(directory, b, splits)
    decreases |splits|
  {
    if |splits| > 0 {
      var last := splits[|splits| - 1];
      DataFilesPermutation(directory, a, b, splits[..|splits| - 1]);
      FindPermutation(directory, a, b, last);
      Strings.SortPermutationInvariant(FindParquetFilesForSplit(directory, a, last), FindParquetFilesForSplit(directory, b, last));
    }
  }

  /** The outcome does not depend on the order `os.listdir` returns names in. */
  lemma ListingOrderIrrelevant(path: string, a: seq<string>, b: seq<string>, info: Option<Descriptor>)
    requires multiset(a) == multiset(b)
    ensures LoadDataset(path, Some(a), info) == LoadDataset(path, Some(b), info)
  {
    assert HasParquetFiles(a) == HasParquetFiles(b) by {
      if HasParquetFiles(a) {
        var k :| 0 <= k < |a| && IsParquetName(a[k]);
        assert a[k] in multiset(b);
        var j :| 0 <= j < |b| && b[j] == a[k];
      }
      if HasParquetFiles(b) {
        var k :| 0 <= k < |b| && IsParquetName(b[k]);
        assert b[k] in multiset(a);
        var j :| 0 <= j < |a| && a[j] == b[k];
      }
    }
    if info.Some? && info.value.splits.Some? {
      DataFilesPermutation(path, a, b, info.value.splits.value);
    }
  }

  /** Without a parquet name in the directory the descriptor is never consulted. */
  lemma NoParquetIgnoresInfo(path: string, listing: seq<string>, info1: Option<Descriptor>, info2: Option<Descriptor>)
    requires forall k :: 0 <= k < |listing| ==> !Strings.EndsWith(listing[k], ".parquet")
    ensures LoadDataset(path, Some(listing), info1) == GenericDelegate
    ensures LoadDataset(path, Some(listing), info1) == LoadDataset(path, Some(listing), info2)
  {
  }

  /** Every split's list is the sorted list of exactly its files; a split with no files gets `[]`. */
  lemma ParquetSplitFiles(path: string, listing: seq<string>, builderSplits: seq<string>, split: string)
    requires HasParquetFiles(listing)
    requires split in builderSplits
    ensures var r := LoadDataset(path, Some(listing), Some(Descriptor("parquet", Some(builderSplits))));
      && r.ParquetLoad? && split in r.dataFiles
      && r.dataFiles[split] == Strings.Sort(FindParquetFilesForSplit(path, listing, split))
      && (forall p :: p in r.dataFiles[split] <==> IsSplitFile(path, listing, split, p))
      && ((forall k :: 0 <= k < |listing| ==> !BelongsToSplit(listing[k], split)) ==> r.dataFiles[split] == [])
  {
    var m := DataFiles(path, listing, builderSplits);
    assert LoadDataset(path, Some(listing), Some(Descriptor("parquet", Some(builderSplits)))) == ParquetLoad(m);
    assert split in m;
    var found := FindParquetFilesForSplit(path, listing, split);
    var files := m[split];
    Strings.SortedUnique(files, Strings.Sort(found));
    forall p ensures p in files <==> IsSplitFile(path, listing, split, p) {
      assert p in files <==> p in multiset(found);
      FindMembership(path, listing, split, p);
    }
    if forall k :: 0 <= k < |listing| ==> !BelongsToSplit(listing[k], split) {
      FindNoneMatching(path, listing, split);
    }
  }

  /**
   * A split whose name followed by `-` starts another split's name collects
   * that split's files too: `train` also lists `train-aug-...` files.
   */
  lemma SplitPrefixOverlap(path: string, listing: seq<string>, name: string, s1: string, s2: string)
    requires name in listing
    requires BelongsToSplit(name, s2)
    requires Strings.StartsWith(s2, s1 + "-")
    ensures Join(path, name) in FindParquetFilesForSplit(path, listing, s1)
    ensures Join(path, name) in FindParquetFilesForSplit(path, listing, s2)
  {
    var k :| 0 <= k < |listing| && listing[k] == name;
    assert name[..|s1 + "-"|] == s2[..|s1 + "-"|];
    assert BelongsToSplit(listing[k], s1);
    FindMembership(path, listing, s1, Join(path, name));
    FindMembership(path, listing, s2, Join(path, name));
  }

  /** The overlap on the usual names: a `train-aug-….parquet` file is listed under both `train` and `train-aug`. */
  lemma TrainCollectsTrainAug(directory: string, rest: string)
    ensures var name := "train-aug-" + rest + ".parquet";
      && FindParquetFilesForSplit(directory, [name], "train") == [Join(directory, name)]
      && FindParquetFilesForSplit(directory, [name], "train-aug") == [Join(directory, name)]
  {
  }
}

=== FILE: save.dfy ===
/**
 * `save_as_parquet` (datasets2/save.py): split a dataset into `num_shards`
 * shards, optionally embed externally referenced files into each shard,
 * and write shard `i` to `{outdir}/{split}-{i:05d}-of-{num_shards:05d}-{fingerprint}.parquet`,
 * returning the written paths in index order.
 *
 * The `datasets` library is not modelled: `ds.shard`, the embedding
 * rewrite of one shard and a shard's fingerprint are uninterpreted
 * functions carried by `Dataset` and `ShardOps`, over an opaque shard type `S`.
 */
module Save {
  import opened Wrappers
  import Strings
  import Decimal

  /** One entry of `ds._info.features`, with the answer `require_decoding` gives for its type. */
  datatype Feature = Feature(name: string, requiresDecoding: bool)

  /** The dataset being saved: its schema and `ds.shard(num_shards=n, index=i, contiguous=True)`. */
  datatype Dataset<S> = Dataset(features: seq<Feature>, shard: (int, int) -> S)

  /**
   * Library operations on one shard: the rewrite that embeds external file
   * bytes (`with_format("arrow")`, `map(embed_table_storage, ...)`, then the
   * original format restored) and the shard's `_fingerprint`.
   */
  datatype ShardOps<!S> = ShardOps(embedExternal: S -> S, fingerprint: S -> string)

  /** Why a call raises. */
  datatype SaveError =
    | UnboundMaxShardSize  // `num_shards is None` reads `max_shard_size` before any assignment
    | NoFirstShard         // `next(shards_iter)` on an empty shard generator

  /** One `shard.to_parquet(path)` call. */
  datatype ShardWrite<S> = ShardWrite(path: string, shard: S)

  /** The observable effect of one call: the directory made, the files written, the outcome. */
  datatype SaveRun<S> = SaveRun(createdDir: string, written: seq<ShardWrite<S>>, result: Result<seq<string>, SaveError>)

  /** `[k for k, v in features.items() if require_decoding(v)]` when embedding is on, else `[]`. */
  function DecodableColumns(features: seq<Feature>, embedExternalFiles: bool): (cols: seq<string>)
    ensures !embedExternalFiles ==> cols == []
    ensures embedExternalFiles ==>
      forall c :: c in cols <==> exists k :: 0 <= k < |features| && features[k].requiresDecoding && features[k].name == c
    ensures |cols| > 0 <==> embedExternalFiles && exists k :: 0 <= k < |features| && features[k].requiresDecoding
    ensures |cols| <= |features|
  {
    if !embedExternalFiles || |features| == 0 then []
    else
      var rest := DecodableColumns(features[1..], embedExternalFiles);
      assert forall k :: 0 < k < |features| ==> features[k] == features[1..][k - 1];
      assert forall k :: 0 <= k < |features| - 1 ==> features[1..][k] == features[k + 1];
      (if features[0].requiresDecoding then [features[0].name] else []) + rest
  }

  /** The generator `(ds.shard(num_shards=n, index=i, contiguous=True) for i in range(n))`; empty when `n <= 0`. */
  function ShardStream<S>(ds: Dataset<S>, n: int): (shards: seq<S>)
    ensures n <= 0 ==> shards == []
    ensures n > 0 ==> |shards| == n && forall i :: 0 <= i < n ==> shards[i] == ds.shard(n, i)
  {
    seq(if n < 0 then 0 else n, i => ds.shard(n, i))
  }

  /** `shards_with_embedded_external_files`: rewrite every shard, one out per one in. */
  function EmbedAll<S>(embed: S -> S, shards: seq<S>): (out: seq<S>)
    ensures |out| == |shards|
    ensures forall i :: 0 <= i < |shards| ==> out[i] == embed(shards[i])
  {
    if |shards| == 0 then [] else [embed(shards[0])] + EmbedAll(embed, shards[1..])
  }

  /** `next(iter(s))`: the first element and the rest of the iterator, or nothing when `s` is empty. */
  function Next<T>(s: seq<T>): (r: Option<(T, seq<T>)>)
    ensures r.None? <==> |s| == 0
    ensures r.Some? ==> [r.value.0] + r.value.1 == s
  {
    if |s| == 0 then None else Some((s[0], s[1..]))
  }

  /** The file name `{split}-{index:05d}-of-{num_shards:05d}-{fingerprint}.parquet`. */
  function ShardFileName(split: string, index: nat, numShards: nat, fingerprint: string): (name: string)
    ensures Strings.StartsWith(name, split + "-")
    ensures Strings.EndsWith(name, ".parquet")
  {
    var name := split + "-" + Decimal.Pad5(index) + "-of-" + Decimal.Pad5(numShards) + "-" + fingerprint + ".parquet";
    assert name == (split + "-") + (Decimal.Pad5(index) + "-of-" + Decimal.Pad5(numShards) + "-" + fingerprint + ".parquet");
    assert name[..|split + "-"|] == split + "-";
    assert name[|name| - 8..] == ".parquet";
    name
  }

  /** `path_in_repo`: the output directory, a slash, and the shard's file name. */
  function ShardPath(outdir: string, split: string, index: nat, numShards: nat, fingerprint: string): (path: string)
    ensures Strings.StartsWith(path, outdir + "/" + split + "-")
    ensures Strings.EndsWith(path, "-" + fingerprint + ".parquet")
  {
    var tail := Decimal.Pad5(index) + "-of-" + Decimal.Pad5(numShards);
    var path := outdir + "/" + ShardFileName(split, index, numShards, fingerprint);
    assert path == (outdir + "/" + split + "-") + (tail + "-" + fingerprint + ".parquet");
    assert path == (outdir + "/" + split + "-" + tail) + ("-" + fingerprint + ".parquet");
    Strings.ConcatStartsWith(outdir + "/" + split + "-", tail + "-" + fingerprint + ".parquet");
    Strings.ConcatEndsWith(outdir + "/" + split + "-" + tail, "-" + fingerprint + ".parquet");
    path
  }

  /** Whether the shards pass through the embedding rewrite. */
  predicate EmbedsShards(features: seq<Feature>, embedExternalFiles: bool) {
    embedExternalFiles && exists k :: 0 <= k < |features| && features[k].requiresDecoding
  }

  /** Shard `i` of `n` as it reaches `to_parquet`. */
  function PreparedShard<S>(ds: Dataset<S>, ops: ShardOps<S>, n: int, i: int, embedExternalFiles: bool): S
  {
    if EmbedsShards(ds.features, embedExternalFiles) then ops.embedExternal(ds.shard(n, i)) else ds.shard(n, i)
  }

  /** The fingerprints of the `n` shards as they reach `to_parquet`, in index order. */
  function PreparedFingerprints<S>(ds: Dataset<S>, ops: ShardOps<S>, n: nat, embedExternalFiles: bool): seq<string>
  {
    seq(n, i => ops.fingerprint(PreparedShard(ds, ops, n, i, embedExternalFiles)))
  }

  /**
   * The `enumerate(...)` loop: name shard `index` by `path_in_repo`, write
   * it with `to_parquet` and append its path.
   */
  method WriteShards<S>(outdir: string, split: string, numShards: nat, shards: seq<S>, fingerprint: S -> string)
    returns (paths: seq<string>, written: seq<ShardWrite<S>>)
    ensures |paths| == |shards| && |written| == |shards|
    ensures forall i :: 0 <= i < |shards| ==>
      && written[i] == ShardWrite(paths[i], shards[i])
      && paths[i] == ShardPath(outdir, split, i, numShards, fingerprint(shards[i]))
  {
    paths := [];
    written := [];
    var index := 0;
    while index < |shards|
      invariant 0 <= index <= |shards|
      invariant |paths| == index && |written| == index
      invariant forall i :: 0 <= i < index ==>
        && written[i] == ShardWrite(paths[i], shards[i])
        && paths[i] == ShardPath(outdir, split, i, numShards, fingerprint(shards[i]))
    {
      var shard := shards[index];
      var path := ShardPath(outdir, split, index, numShards, fingerprint(shard));
      written := written + [ShardWrite(path, shard)];
      paths := paths + [path];
      index := index + 1;
    }
  }

  /**
   * `save_as_parquet(ds, outdir, split="train", num_shards=2, embed_external_files=True)`;
   * `numShards` is `None` when the caller passes `num_shards=None`.
   */
  method SaveAsParquet<S>(ds: Dataset<S>, ops: ShardOps<S>, outdir: string, split: string := "train",
                          numShards: Option<int> := Some(2), embedExternalFiles: bool := true)
    returns (run: SaveRun<S>)
    ensures run.createdDir == outdir
    ensures numShards.None? ==> run.result == Failure(UnboundMaxShardSize) && run.written == []
    ensures numShards.Some? && numShards.value <= 0 ==> run.result == Failure(NoFirstShard) && run.written == []
    ensures numShards.Some? && numShards.value >= 1 ==>
      var n := numShards.value;
      && run.result.Success?
      && |run.result.value| == n
      && |run.written| == n
      && forall i :: 0 <= i < n ==>
           var shard := PreparedShard(ds, ops, n, i, embedExternalFiles);
           && run.written[i] == ShardWrite(run.result.value[i], shard)
           && run.result.value[i] == ShardPath(outdir, split, i, n, ops.fingerprint(shard))
    ensures numShards.Some? && numShards.value >= 1 ==>
      run.result.value == SavedPaths(outdir, split, PreparedFingerprints(ds, ops, numShards.value, embedExternalFiles))
  {
    // os.makedirs(outdir, exist_ok=True) happens before anything can fail.
    var decodable := DecodableColumns(ds.features, embedExternalFiles);
    if numShards.None? {
      return SaveRun(outdir, [], Failure(UnboundMaxShardSize));
    }
    var n := numShards.value;
    var shards := ShardStream(ds, n);
    if |decodable| > 0 {
      shards := EmbedAll(ops.embedExternal, shards);
    }
    var peeled := Next(shards);
    if peeled.None? {
      return SaveRun(outdir, [], Failure(NoFirstShard));
    }
    var (first, rest) := peeled.value;
    var chained := [first] + rest;
    assert forall i :: 0 <= i < n ==> chained[i] == PreparedShard(ds, ops, n, i, embedExternalFiles);
    var paths, written := WriteShards(outdir, split, n, chained, ops.fingerprint);
    assert paths == SavedPaths(outdir, split, PreparedFingerprints(ds, ops, n, embedExternalFiles));
    return SaveRun(outdir, written, Success(paths));
  }

  /** The part of a shard path before its index segment. */
  function PathHead(outdir: string, split: string): string
  {
    outdir + "/" + split + "-"
  }

  /** The part of a shard path after its index segment. */
  function PathTail(numShards: nat, fingerprint: string): (t: string)
    ensures |t| > 0 && t[0] == '-'
  {
    "-of-" + Decimal.Pad5(numShards) + "-" + fingerprint + ".parquet"
  }

  lemma PathSplitsAtIndex(outdir: string, split: string, index: nat, numShards: nat, fingerprint: string)
    ensures ShardPath(outdir, split, index, numShards, fingerprint)
         == PathHead(outdir, split) + (Decimal.Pad5(index) + PathTail(numShards, fingerprint))
  {
  }

  /** A shorter digit run ended by `-` differs from a longer one at its dash. */
  lemma ShorterDigitRunDiffers(a: string, b: string, x: string, y: string)
    requires Decimal.AllDigits(b)
    requires |x| > 0 && x[0] == '-'
    requires |a| < |b|
    ensures a + x != b + y
  {
    assert (a + x)[|a|] == '-';
    assert (b + y)[|a|] == b[|a|];
  }

  /** A digit run ended by `-` is determined by the text it starts. */
  lemma DigitRunDetermined(a: string, b: string, x: string, y: string)
    requires Decimal.AllDigits(a) && Decimal.AllDigits(b)
    requires |x| > 0 && x[0] == '-' && |y| > 0 && y[0] == '-'
    requires a + x == b + y
    ensures a == b
  {
    if |a| < |b| {
      ShorterDigitRunDiffers(a, b, x, y);
    } else if |b| < |a| {
      ShorterDigitRunDiffers(b, a, y, x);
    }
    assert a == (a + x)[..|a|] == (b + y)[..|b|] == b;
  }

  /**
   * Shards of one save get distinct paths: with the directory, split and
   * shard count fixed, different indices give different paths whatever the
   * fingerprints are.
   */
  lemma ShardPathsDistinct(outdir: string, split: string, numShards: nat, i: nat, j: nat, fi: string, fj: string)
    requires i != j
    ensures ShardPath(outdir, split, i, numShards, fi) != ShardPath(outdir, split, j, numShards, fj)
  {
    if ShardPath(outdir, split, i, numShards, fi) == ShardPath(outdir, split, j, numShards, fj) {
      var head := PathHead(outdir, split);
      var ti := PathTail(numShards, fi);
      var tj := PathTail(numShards, fj);
      PathSplitsAtIndex(outdir, split, i, numShards, fi);
      PathSplitsAtIndex(outdir, split, j, numShards, fj);
      assert head + (Decimal.Pad5(i) + ti) == head + (Decimal.Pad5(j) + tj);
      assert Decimal.Pad5(i) + ti == Decimal.Pad5(j) + tj by {
        assert Decimal.Pad5(i) + ti == (head + (Decimal.Pad5(i) + ti))[|head|..];
        assert Decimal.Pad5(j) + tj == (head + (Decimal.Pad5(j) + tj))[|head|..];
      }
      Decimal.ZeroPadShape(i, 5);
      Decimal.ZeroPadShape(j, 5);
      DigitRunDetermined(Decimal.Pad5(i), Decimal.Pad5(j), ti, tj);
      Decimal.ZeroPadInjective(i, j, 5);
    }
  }

  /**
   * Below 100000 shards, path order is index order: the loader's `sorted()`
   * puts the shards of one save back in the order they were written.
   */
  lemma ShardPathsOrdered(outdir: string, split: string, numShards: nat, i: nat, j: nat, fi: string, fj: string)
    requires i < j < 100000
    ensures Strings.Less(ShardPath(outdir, split, i, numShards, fi), ShardPath(outdir, split, j, numShards, fj))
  {
    assert Decimal.Pow10(5) == 100000;
    Decimal.ZeroPadOrder(i, j, 5);
    Strings.LessEqualLengthExtend(Decimal.Pad5(i), Decimal.Pad5(j), PathTail(numShards, fi), PathTail(numShards, fj));
    Strings.LessCommonPrefix(PathHead(outdir, split), Decimal.Pad5(i) + PathTail(numShards, fi), Decimal.Pad5(j) + PathTail(numShards, fj));
    PathSplitsAtIndex(outdir, split, i, numShards, fi);
    PathSplitsAtIndex(outdir, split, j, numShards, fj);
  }

  /** The paths one successful call returns, given the fingerprint of each prepared shard. */
  function SavedPaths(outdir: string, split: string, fingerprints: seq<string>): seq<string>
  {
    seq(|fingerprints|, i requires 0 <= i < |fingerprints| => ShardPath(outdir, split, i, |fingerprints|, fingerprints[i]))
  }

  /**
   * The returned list has no repeated path and, for at most 100000
   * shards, is already in `sorted()` order.
   */
  lemma SavedPathsInSortedOrder(outdir: string, split: string, fingerprints: seq<string>)
    ensures var paths := SavedPaths(outdir, split, fingerprints);
      forall i, j :: 0 <= i < j < |paths| ==> paths[i] != paths[j]
    ensures |fingerprints| <= 100000 ==>
      var paths := SavedPaths(outdir, split, fingerprints);
      Strings.StrictlyIncreasing(paths) && Strings.Sort(paths) == paths
  {
    var paths := SavedPaths(outdir, split, fingerprints);
    var n := |fingerprints|;
    forall i, j | 0 <= i < j < |paths| ensures paths[i] != paths[j] {
      ShardPathsDistinct(outdir, split, n, i, j, fingerprints[i], fingerprints[j]);
    }
    if n <= 100000 {
      forall i, j | 0 <= i < j < |paths| ensures Strings.Less(paths[i], paths[j]) {
        ShardPathsOrdered(outdir, split, n, i, j, fingerprints[i], fingerprints[j]);
      }
      assert Strings.Sorted(paths);
      Strings.SortOfSorted(paths);
    }
  }

  /** From 100000 shards on, name order and index order part ways: `"100000"` sorts before `"99999"`. */
  lemma NameOrderBreaksAt100000()
    ensures Strings.Less(Decimal.Pad5(100000), Decimal.Pad5(99999))
  {
  }

  /** The same overflow seen on whole paths: shard 100000's path sorts before shard 99999's. */
  lemma ShardPathOrderBreaksAt100000(outdir: string, split: string, numShards: nat, f1: string, f2: string)
    ensures Strings.Less(ShardPath(outdir, split, 100000, numShards, f1), ShardPath(outdir, split, 99999, numShards, f2))
  {
    NameOrderBreaksAt100000();
    var a := Decimal.Pad5(100000) + PathTail(numShards, f1);
    var b := Decimal.Pad5(99999) + PathTail(numShards, f2);
    assert a[0] == '1' && b[0] == '9';
    assert Strings.Less(a, b);
    Strings.LessCommonPrefix(PathHead(outdir, split), a, b);
    PathSplitsAtIndex(outdir, split, 100000, numShards, f1);
    PathSplitsAtIndex(outdir, split, 99999, numShards, f2);
  }

  /**
   * The call with every default taken, `save_as_parquet(ds, outdir=...)`:
   * two shards of split `train`, numbered `00000` and `00001` of `00002`.
   */
  method SaveWithDefaults<S>(ds: Dataset<S>, ops: ShardOps<S>, outdir: string) returns (paths: seq<string>)
    ensures |paths| == 2
    ensures forall i :: 0 <= i < 2 ==>
      paths[i] == ShardPath(outdir, "train", i, 2, ops.fingerprint(PreparedShard(ds, ops, 2, i, true)))
  {
    var run := SaveAsParquet(ds, ops, outdir);
    paths := run.result.value;
  }
}

=== FILE: save_then_load.dfy ===
/**
 * How the two halves meet: the shard files `save_as_parquet` leaves in a
 * directory, seen again by `load_dataset`.
 */
module SaveThenLoad {
  import opened Wrappers
  import Strings
  import Decimal
  import Save
  import Load

  /** The file names one successful save leaves in its output directory, in index order. */
  function SavedNames(split: string, fingerprints: seq<string>): seq<string>
  {
    seq(|fingerprints|, i requires 0 <= i < |fingerprints| => Save.ShardFileName(split, i, |fingerprints|, fingerprints[i]))
  }

  /** Every saved shard name passes the loader's filter for its own split. */
  lemma SavedNameBelongsToSplit(split: string, index: nat, numShards: nat, fingerprint: string)
    ensures Load.BelongsToSplit(Save.ShardFileName(split, index, numShards, fingerprint), split)
  {
  }

  /**
   * Loading gives back the saved order: whatever order `os.listdir` lists
   * the shards of one save in, and whatever other names that do not pass the
   * split's filter sit beside them (so not, for example, `train-aug-…` files
   * when the split is `train`), the split's sorted file list is the list the
   * save returned, as long as there are at most 100000 shards.
   */
  lemma ReloadInIndexOrder(outdir: string, split: string, fingerprints: seq<string>,
                           others: seq<string>, listing: seq<string>)
    requires |fingerprints| <= 100000
    requires forall k :: 0 <= k < |others| ==> !Load.BelongsToSplit(others[k], split)
    requires multiset(listing) == multiset(SavedNames(split, fingerprints) + others)
    ensures Strings.Sort(Load.FindParquetFilesForSplit(outdir, listing, split)) == Save.SavedPaths(outdir, split, fingerprints)
  {
    var names := SavedNames(split, fingerprints);
    forall k | 0 <= k < |names| ensures Load.BelongsToSplit(names[k], split) {
      SavedNameBelongsToSplit(split, k, |fingerprints|, fingerprints[k]);
    }
    Load.FindAllMatching(outdir, names, split);
    Load.FindNoneMatching(outdir, others, split);
    Load.FindConcat(outdir, names, others, split);
    var found := Load.FindParquetFilesForSplit(outdir, names + others, split);
    assert found == Save.SavedPaths(outdir, split, fingerprints);
    Load.FindPermutation(outdir, listing, names + others, split);
    Strings.SortPermutationInvariant(Load.FindParquetFilesForSplit(outdir, listing, split), found);
    Save.SavedPathsInSortedOrder(outdir, split, fingerprints);
  }

  /**
   * `save_as_parquet` writes no `dataset_info.json`, so a directory holding
   * only its shards makes `load_dataset` raise instead of loading them.
   */
  lemma SavedShardsAloneDoNotLoad(outdir: string, split: string, fingerprints: seq<string>)
    requires |fingerprints| >= 1
    ensures Load.LoadDataset(outdir, Some(SavedNames(split, fingerprints)), None) == Load.Failed(Load.InfoNotFound)
  {
    SavedNameBelongsToSplit(split, 0, |fingerprints|, fingerprints[0]);
    assert Load.IsParquetName(SavedNames(split, fingerprints)[0]);
  }
}

=== FILE: strings.dfy ===
/**
 * String predicates and the ordering Python applies to `str` values:
 * `startswith`, `endswith`, code-point lexicographic comparison and the
 * `sorted()` of a list of strings.
 */
module Strings {

  /** `s.startswith(prefix)` */
  predicate StartsWith(s: string, prefix: string) {
    |prefix| <= |s| && s[..|prefix|] == prefix
  }

  /** `s.endswith(suffix)` */
  predicate EndsWith(s: string, suffix: string) {
    |suffix| <= |s| && s[|s| - |suffix|..] == suffix
  }

  lemma ConcatStartsWith(a: string, b: string)
    ensures StartsWith(a + b, a)
  {
    assert (a + b)[..|a|] == a;
  }

  lemma ConcatEndsWith(a: string, b: string)
    ensures EndsWith(a + b, b)
  {
    assert (a + b)[|a + b| - |b|..] == b;
  }

  /**
   * `a < b` on Python strings: compare code points left to right; when one
   * string is a proper prefix of the other, the shorter one is smaller.
   */
  predicate Less(a: string, b: string)
    decreases |a|
  {
    if |a| == 0 then |b| > 0
    else if |b| == 0 then false
    else if a[0] != b[0] then a[0] < b[0]
    else Less(a[1..], b[1..])
  }

  /** `a <= b` on Python strings. */
  predicate LessEq(a: string, b: string) {
    a == b || Less(a, b)
  }

  lemma {:induction false} LessIrreflexive(a: string)
    ensures !Less(a, a)
    decreases |a|
  {
    if |a| > 0 {
      LessIrreflexive(a[1..]);
    }
  }

  lemma {:induction false} LessAsymmetric(a: string, b: string)
    requires Less(a, b)
    ensures !Less(b, a)
    decreases |a|
  {
    if |a| > 0 && |b| > 0 && a[0] == b[0] {
      LessAsymmetric(a[1..], b[1..]);
    }
  }

  lemma {:induction false} LessTransitive(a: string, b: string, c: string)
    requires Less(a, b) && Less(b, c)
    ensures Less(a, c)
    decreases |a|
  {
    if |a| > 0 && a[0] == b[0] && b[0] == c[0] {
      LessTransitive(a[1..], b[1..], c[1..]);
    }
  }

  /** Python's string order is total: distinct strings are comparable. */
  lemma {:induction false} LessTotal(a: string, b: string)
    requires a != b
    ensures Less(a, b) || Less(b, a)
    decreases |a|
  {
    if |a| > 0 && |b| > 0 && a[0] == b[0] {
      assert a == [a[0]] + a[1..] && b == [b[0]] + b[1..];
      LessTotal(a[1..], b[1..]);
    }
  }

  /** A common prefix does not change the comparison. */
  lemma {:induction false} LessCommonPrefix(p: string, a: string, b: string)
    ensures Less(p + a, p + b) <==> Less(a, b)
    decreases |p|
  {
    if |p| > 0 {
      assert (p + a)[0] == (p + b)[0];
      assert (p + a)[1..] == p[1..] + a;
      assert (p + b)[1..] == p[1..] + b;
      LessCommonPrefix(p[1..], a, b);
    } else {
      assert p + a == a && p + b == b;
    }
  }

  /** Between two strings of equal length the comparison is settled inside them. */
  lemma {:induction false} LessEqualLengthExtend(a: string, b: string, x: string, y: string)
    requires |a| == |b| && Less(a, b)
    ensures Less(a + x, b + y)
    decreases |a|
  {
    if a[0] == b[0] {
      assert (a + x)[1..] == a[1..] + x;
      assert (b + y)[1..] == b[1..] + y;
      LessEqualLengthExtend(a[1..], b[1..], x, y);
    }
  }

  /** Appending one character to equal prefixes compares by that character. */
  lemma {:induction false} LessLastChar(a: string, c: char, d: char)
    requires c < d
    ensures Less(a + [c], a + [d])
  {
    LessCommonPrefix(a, [c], [d]);
  }

  /** Non-decreasing under Python's string order. */
  ghost predicate Sorted(s: seq<string>) {
    forall i, j :: 0 <= i < j < |s| ==> LessEq(s[i], s[j])
  }

  /** Strictly increasing under Python's string order. */
  ghost predicate StrictlyIncreasing(s: seq<string>) {
    forall i, j :: 0 <= i < j < |s| ==> Less(s[i], s[j])
  }

  /** Insert `x` into the sorted list `s`, before the first element not below it. */
  function Insert(x: string, s: seq<string>): (r: seq<string>)
    requires Sorted(s)
    ensures Sorted(r)
    ensures multiset(r) == multiset(s) + multiset{x}
    ensures |r| == |s| + 1
  {
    if |s| == 0 then [x]
    else if LessEq(x, s[0]) then
      assert forall j :: 0 < j < |s| ==> LessEq(x, s[j]) by {
        forall j | 0 < j < |s| ensures LessEq(x, s[j]) {
          if x != s[0] && s[0] != s[j] { LessTransitive(x, s[0], s[j]); }
        }
      }
      [x] + s
    else
      var rest := Insert(x, s[1..]);
      assert s == [s[0]] + s[1..];
      LessTotal(x, s[0]);
      assert forall k :: 0 <= k < |rest| ==> LessEq(s[0], rest[k]) by {
        forall k | 0 <= k < |rest| ensures LessEq(s[0], rest[k]) {
          assert rest[k] in multiset(rest);
          assert rest[k] == x || rest[k] in multiset(s[1..]);
          if rest[k] != x {
            var j :| 0 <= j < |s[1..]| && s[1..][j] == rest[k];
            assert s[j + 1] == rest[k];
          }
        }
      }
      [s[0]] + rest
  }

  /** Python's `sorted()` on a list of strings, as an insertion sort. */
  function Sort(s: seq<string>): (r: seq<string>)
    ensures Sorted(r)
    ensures multiset(r) == multiset(s)
    ensures |r| == |s|
  {
    if |s| == 0 then []
    else
      assert s == [s[0]] + s[1..];
      Insert(s[0], Sort(s[1..]))
  }

  /** Two sorted lists with the same elements are the same list. */
  lemma {:induction false} SortedUnique(a: seq<string>, b: seq<string>)
    requires Sorted(a) && Sorted(b)
    requires multiset(a) == multiset(b)
    ensures a == b
    decreases |a|
  {
    if |a| == 0 {
      assert |b| == |multiset(b)| == 0;
    } else {
      assert |b| == |multiset(b)| == |a|;
      assert a[0] in multiset(b);
      var k :| 0 <= k < |b| && b[k] == a[0];
      assert b[0] in multiset(a);
      var m :| 0 <= m < |a| && a[m] == b[0];
      assert LessEq(b[0], a[0]) && LessEq(a[0], b[0]);
      if a[0] != b[0] {
        LessAsymmetric(a[0], b[0]);
        assert false;
      }
      assert a == [a[0]] + a[1..] && b == [b[0]] + b[1..];
      assert multiset(a) == multiset{a[0]} + multiset(a[1..]);
      assert multiset(b) == multiset{a[0]} + multiset(b[1..]);
      assert multiset(a[1..]) == multiset(a) - multiset{a[0]};
      assert multiset(b[1..]) == multiset(b) - multiset{a[0]};
      SortedUnique(a[1..], b[1..]);
    }
  }

  /** `sorted()` depends only on which strings occur how often, not on their order. */
  lemma SortPermutationInvariant(a: seq<string>, b: seq<string>)
    requires multiset(a) == multiset(b)
    ensures Sort(a) == Sort(b)
  {
    SortedUnique(Sort(a), Sort(b));
  }

  /** `sorted()` leaves an already sorted list as it is. */
  lemma SortOfSorted(a: seq<string>)
    requires Sorted(a)
    ensures Sort(a) == a
  {
    SortedUnique(Sort(a), a);
  }
}

=== FILE: wrappers.dfy ===
/** Failure-carrying datatypes used by the save and load models. */
module Wrappers {

  /** A value that may be absent: a missing file, an unset argument. */
  datatype Option<+T> = None | Some(value: T)

  /** The outcome of an operation that can raise. */
  datatype Result<+R, +E> = Success(value: R) | Failure(error: E)
}
